=== FILE: README.md ===
# Food-ordering front end: cart, checkout and order tracking

A model of the client-side logic of a food-ordering web page. Customers pick
menu items into a cart, see a subtotal, a flat delivery fee and a grand
total, place the order with a hosted backend, and follow it in a tracking
overlay whose five-step progress bar comes from the order's status string.
The backend, authentication and the push channel are external services; the
model keeps only what the page itself computes from their answers.

Modules:

- `Optional` — `Option<T>`, the model of a JavaScript `null`/`undefined`.
- `Domain` — menu items, cart lines, users, the record sent to the insert,
  order rows, and JavaScript truthiness of optional strings.
- `Cart` — subtotal, delivery fee, grand total and the checkout button
  (`components/Cart.jsx`).
- `Tracking` — the status table, `findIndex` progress derivation, the held
  snapshot with loads and pushed updates, rendering and the driver panel
  (`components/OrderTracking.jsx`).
- `Home` — the page's state `{cart, activeOrder, user}` and its transitions:
  add, remove by position, place order, close overlay, session change
  (`app/page.jsx`).

Prices are integer cents: the 3.99 fee is 399, so every sum is exact.
The answer of the backend's insert is an `Option<Order>` argument of
`Home.PlaceOrder`, and the initial load and every pushed update are inputs of
`Tracking.Loaded`/`Tracking.Updated`.

Behaviour of the code worth knowing when reading the model:

- For `delivered`, step 4 is marked current ("In Progress...") like every
  known status (`Tracking.KnownStatusProgress`).
- An empty cart with a signed-in user fails on `cart[0]` (app/page.jsx:62)
  before any insert. The page never offers checkout then
  (`Home.CheckoutReachableOnlyWhenValid`), so `Home.PlaceOrder` requires a
  non-empty cart whenever a user is signed in.
- The stored `total_amount` leaves the delivery fee out, but the panel's
  total includes it. The model keeps this as written and proves the gap is
  exactly the fee (`Home.ShownTotalExceedsStored`).
- The tracking overlay is rendered without a key, so when the active order
  changes while it is mounted (a checkout while one order is active), the
  same overlay is reused: it follows the new id but keeps showing the old
  snapshot until a row for the new order arrives, and the old order's
  pending load may still land afterwards (`Home.Overlay`,
  `Home.RetargetedOverlayShowsPrevious`, `Tracking.ReplayHoldsLastRow`).

## Model

| member | source | states |
|---|---|---|
| Cart.CheckoutButton | components/Cart.jsx:12-61 | the button exists iff the cart has a line; it is enabled iff a user is signed in; it reads "Place Order" when enabled and "Sign in to Order" when disabled |
| Cart.Subtotal | components/Cart.jsx:4 | the sum of the line prices: 0 for an empty cart, the one price for a one-line cart, never negative when no price is |
| Cart.DeliveryFee | components/Cart.jsx:5 | the fee is 399 cents iff the cart has a line and 0 iff it is empty |
| Cart.GrandTotal | components/Cart.jsx:6 | a non-empty cart's grand total is its subtotal plus 3.99; an empty cart's grand total is 0 (the panel shows no total then) |
| Cart.SubtotalConcat | components/Cart.jsx:4 | the subtotal is additive: the subtotal of a concatenation is the sum of the parts' subtotals |
| Cart.SubtotalAppend | components/Cart.jsx:4 | appending a line raises the subtotal by exactly that line's price |
| Cart.SubtotalRemove | components/Cart.jsx:4 | cutting out the line at a valid position lowers the subtotal by exactly that line's price |
| Cart.DeliveryFeeOnlyEmptiness | components/Cart.jsx:5 | two carts that are both empty or both non-empty pay the same fee, whatever their lines |
| Cart.GrandTotalBounds | components/Cart.jsx:4-6 | with no negative price, the grand total is at least the fee and at least the subtotal, so a non-empty cart's total is at least 3.99 |
| Cart.GrandTotalAppend | components/Cart.jsx:4-6 | adding a line raises the grand total by its price, plus the fee when the cart was empty |
| Cart.ExampleBasket | components/Cart.jsx:4-6 | burger 8.00 and fries 3.00 give subtotal 11.00, fee 3.99, total 14.99 |
| Tracking.StatusStepsShape | components/OrderTracking.jsx:6-12 | five steps with pairwise distinct keys, ordered pending, confirmed, preparing, out_for_delivery, delivered |
| Tracking.FindIndex | components/OrderTracking.jsx:55 | the result is -1 or a position whose key equals the status with no earlier match; it is -1 iff no key matches |
| Tracking.CurrentStepIndex | components/OrderTracking.jsx:55 | the status's position in the table, whose key equals the status; -1 exactly when the status is not a table key |
| Tracking.IsActive | components/OrderTracking.jsx:77 | the current step itself is reached, and no step is reached when the index is -1 |
| Tracking.IsCurrent | components/OrderTracking.jsx:78 | the step in progress is reached and the step after it is not |
| Tracking.CurrentStepIndexOfKey | components/OrderTracking.jsx:55 | each table key is found at its own position |
| Tracking.Progress | components/OrderTracking.jsx:76-78 | one rendered step per table row, in table order |
| Tracking.KnownStatusProgress | components/OrderTracking.jsx:77-78 | for the key at position k, step i is reached iff i <= k and in progress iff i == k |
| Tracking.UnknownStatusProgress | components/OrderTracking.jsx:77-78 | for a status outside the table no step is reached and none is in progress |
| Tracking.ActiveIsPrefix | components/OrderTracking.jsx:77 | reached steps form a prefix: any step before a reached step is reached |
| Tracking.CurrentIsLastActive | components/OrderTracking.jsx:77-78 | the step in progress is the furthest reached one: every reached step is at or before it |
| Tracking.ActiveCountIsIndexPlusOne | components/OrderTracking.jsx:55-78 | the number of reached steps is the status's position + 1, so 0 for an unknown status |
| Tracking.CurrentCount | components/OrderTracking.jsx:55-78 | exactly one step is in progress for a known status and none for an unknown one |
| Tracking.DriverInfo | components/OrderTracking.jsx:108-114 | the driver panel shows iff the driver name is non-empty; the ETA is the order's when non-empty, else "20-30 mins" |
| Tracking.Open | components/OrderTracking.jsx:15 | the overlay starts following the given order with no snapshot |
| Tracking.Loaded | components/OrderTracking.jsx:43-51 | the initial load sets the snapshot only when a row came back and otherwise changes nothing |
| Tracking.Updated | components/OrderTracking.jsx:32-34 | a pushed update makes the payload the snapshot, whatever was held before |
| Tracking.Replay | components/OrderTracking.jsx:33-50 | applying loads and updates in arrival order keeps the followed id, changes nothing for no events, and never blanks a held snapshot |
| Tracking.ReplayHoldsLastRow | components/OrderTracking.jsx:32-50 | after any run of loads and updates the snapshot is the last row that arrived (or the old one if none did), and the followed order id is unchanged |
| Tracking.ReplayKeepsSnapshot | components/OrderTracking.jsx:32-50 | once a snapshot is held, no later event makes the overlay blank again |
| Tracking.UpdatedIdempotent | components/OrderTracking.jsx:32-34 | receiving the same update twice equals receiving it once |
| Tracking.UpdatedOverwrites | components/OrderTracking.jsx:32-34 | of two successive updates only the second leaves a trace |
| Tracking.Render | components/OrderTracking.jsx:53-114 | the overlay renders iff it holds a snapshot, and then shows that snapshot's id and total, the steps derived from its status and its driver panel |
| Tracking.PendingRendersFirstStep | components/OrderTracking.jsx:55-78 | a pending order shows step 0 reached and in progress and steps 1-4 neither |
| Home.Initial | app/page.jsx:10-13 | the page starts with an empty cart and no active order |
| Home.LineOf | app/page.jsx:43 | the line copies the item's id, name, description and price and carries the given restaurant id |
| Home.AddToCart | app/page.jsx:42-44 | the cart grows by one, the earlier lines are unchanged, and the new last line carries the item's fields and the restaurant id |
| Home.AddTwiceKeepsBoth | app/page.jsx:43 | adding an item twice gives two equal lines, with no merging |
| Home.WithoutIndex | app/page.jsx:47 | filtering by position drops one line for an in-range position and none otherwise, and keeps only lines of the cart |
| Home.WithoutIndexCuts | app/page.jsx:47 | filtering out a position equals cutting out that line when it is in range, and equals the cart otherwise |
| Home.RemoveFromCart | app/page.jsx:46-48 | a valid position removes one line, keeps those before it and shifts those after it down by one; any other position leaves the cart unchanged |
| Home.RemoveFirstOfTwo | app/page.jsx:47 | removing position 0 from a two-line cart leaves only the former second line |
| Home.RemoveUndoesAdd | app/page.jsx:42-48 | adding a line and removing it by its position restores the state |
| Home.AddRaisesSubtotal | app/page.jsx:42-44 | adding an item raises the subtotal by its price |
| Home.RemoveLowersSubtotal | app/page.jsx:46-48 | removing a valid position lowers the subtotal by that line's price; an invalid one keeps it |
| Home.OrderRecord | app/page.jsx:56-66 | the record is pending, for the user, for the first line's restaurant, holds the cart and totals the line prices without the fee |
| Home.PlaceOrder | app/page.jsx:50-75 | with no user nothing is sent and nothing changes; otherwise the cart's record is sent, and an answered row empties the cart and becomes the active order, while no answer changes nothing |
| Home.FailedCheckoutChangesNothing | app/page.jsx:51-74 | a refused (no user) or unanswered checkout leaves the whole state unchanged |
| Home.ShownTotalExceedsStored | app/page.jsx:56-64 | for a non-empty cart the panel's total is the stored total_amount plus exactly the delivery fee |
| Home.CheckoutReachableOnlyWhenValid | components/Cart.jsx:12-61 | a pressable checkout button implies a signed-in user and a non-empty cart, so a record is sent |
| Home.Overlay | app/page.jsx:109-111 | the overlay is mounted iff an order is active and follows its id; a fresh mount starts blank, while a mounted overlay reused for a new active order keeps its previous snapshot |
| Home.CheckoutOpensOverlay | app/page.jsx:70-110 | a successful checkout with no active order opens a blank overlay on the new order; with one active, the overlay turns to the new id but keeps the old snapshot; closing unmounts it |
| Home.RetargetedOverlayShowsPrevious | components/OrderTracking.jsx:15-72 | a reused overlay that held order A still renders A's id and total while following another order |
| Home.CloseTracker | app/page.jsx:110 | closing clears the active order and keeps the cart and the user |
| Home.SessionChanged | app/page.jsx:18-26 | a session change replaces the user and keeps the cart and the active order |
| Home.ExampleCheckout | app/page.jsx:50-75 | the burger-and-fries cart, placed by a signed-in user, sends a pending 11.00 record for R1 and ends with an empty cart and the new order active |

## Left out

- All backend I/O: session lookup, the auth listener, sign-out, the restaurant query, the insert round trip, the order query and the realtime channel. Their answers are inputs of the model.
- The restaurant catalogue and its loading (`loadRestaurants`), and the loading flag of the page: they only fill what the page renders.
- `components/RestaurantCard.jsx` and `app/layout.jsx`: rendering only; the card forwards `(item, restaurant.id)` to `addToCart`, which is modelled.
- React hooks, effects and subscription teardown; `alert` messages; markup, styling and the step icons.
- The backend-side filter that delivers only updates for the followed order: `Tracking.Updated` accepts any payload, as the callback does.
- JavaScript floating-point sums and `toFixed(2)` formatting: prices are exact integer cents.
- Home.PlaceOrder: an empty cart with a signed-in user fails on `cart[0]` in the code; the model excludes it by precondition, since the page never offers checkout then.
- Home.PlaceOrder: checkout is one atomic step, while the code awaits the insert (app/page.jsx:58-68) with the cart panel and its button still live. A second press during the wait sends a second, identical record, and lines added during the wait are wiped by the cart reset (app/page.jsx:72) without being part of the order. The model represents neither.
- Home.LineOf: a cart line keeps only the menu-item fields the pages read (id, name, description, price) plus the restaurant id; the code copies every column of the menu-item row into the line and stores them all in the order's items.

=== FILE: cart.dfy ===
/**
 * The cart panel: subtotal, flat delivery fee, grand total and the checkout
 * button (components/Cart.jsx).
 */
module Cart {
  import opened Optional
  import opened Domain

  /** The flat delivery fee, 3.99 in currency units. */
  const DeliveryFeeCents: Cents := 399

  /** Sum of the line prices, folded from the left as `reduce` does, starting at 0. */
  function Subtotal(items: seq<CartLine>): (r: Cents)
    ensures |items| == 0 ==> r == 0
    ensures |items| == 1 ==> r == items[0].price
    ensures (forall i :: 0 <= i < |items| ==> items[i].price >= 0) ==> r >= 0
  {
    if |items| == 0 then 0 else Subtotal(items[..|items| - 1]) + items[|items| - 1].price
  }

  /** The fee charged on top of the subtotal: flat, and only for a non-empty cart. */
  function DeliveryFee(items: seq<CartLine>): (r: Cents)
    ensures r == DeliveryFeeCents <==> |items| > 0
    ensures r == 0 <==> |items| == 0
  {
    if |items| > 0 then DeliveryFeeCents else 0
  }

  /** The grand total: subtotal plus fee. The panel displays it only for a non-empty cart. */
  function GrandTotal(items: seq<CartLine>): (r: Cents)
    ensures |items| > 0 ==> r == Subtotal(items) + DeliveryFeeCents
    ensures |items| == 0 ==> r == 0
  {
    Subtotal(items) + DeliveryFee(items)
  }

  /** The checkout button as rendered: whether it can be pressed, and its caption. */
  datatype Button = Button(enabled: bool, caption: string)

  /**
   * The checkout button: rendered only in the non-empty branch of the panel,
   * disabled (and captioned as a sign-in prompt) when nobody is signed in.
   */
  function CheckoutButton(items: seq<CartLine>, user: Option<User>): (b: Option<Button>)
    ensures b.Some? <==> |items| > 0
    ensures b.Some? ==> (b.value.enabled <==> user.Some?)
    ensures b.Some? && b.value.enabled ==> b.value.caption == "Place Order"
    ensures b.Some? && !b.value.enabled ==> b.value.caption == "Sign in to Order"
  {
    if |items| == 0 then None
    else if user.Some? then Some(Button(true, "Place Order"))
    else Some(Button(false, "Sign in to Order"))
  }

  /** The subtotal is additive over concatenation: it is the sum of the prices, whatever the grouping. */
  lemma {:induction false} SubtotalConcat(a: seq<CartLine>, b: seq<CartLine>)
    ensures Subtotal(a + b) == Subtotal(a) + Subtotal(b)
    decreases |b|
  {
    if |b| == 0 {
      assert a + b == a;
    } else {
      var b' := b[..|b| - 1];
      assert (a + b)[..|a + b| - 1] == a + b';
      SubtotalConcat(a, b');
    }
  }

  /** Appending a line raises the subtotal by exactly that line's price. */
  lemma SubtotalAppend(items: seq<CartLine>, line: CartLine)
    ensures Subtotal(items + [line]) == Subtotal(items) + line.price
  {
    assert (items + [line])[..|items|] == items;
  }

  /** A cart is the lines before `i`, the line at `i`, and the lines after `i`. */
  lemma SplitAround(items: seq<CartLine>, i: int)
    requires 0 <= i < |items|
    ensures items == (items[..i] + [items[i]]) + items[i + 1..]
  {
  }

  /** Removing the line at `i` lowers the subtotal by exactly that line's price. */
  lemma SubtotalRemove(items: seq<CartLine>, i: int)
    requires 0 <= i < |items|
    ensures Subtotal(items[..i] + items[i + 1..]) == Subtotal(items) - items[i].price
  {
    var front := items[..i];
    var back := items[i + 1..];
    SplitAround(items, i);
    SubtotalConcat(front + [items[i]], back);
    SubtotalAppend(front, items[i]);
    SubtotalConcat(front, back);
  }

  /** The fee depends on nothing but whether the cart is empty. */
  lemma DeliveryFeeOnlyEmptiness(a: seq<CartLine>, b: seq<CartLine>)
    requires (|a| == 0) == (|b| == 0)
    ensures DeliveryFee(a) == DeliveryFee(b)
  {
  }

  /**
   * With no negative price, the grand total covers both the fee and the
   * subtotal: a non-empty cart always costs at least 3.99.
   */
  lemma GrandTotalBounds(items: seq<CartLine>)
    requires forall i :: 0 <= i < |items| ==> items[i].price >= 0
    ensures GrandTotal(items) >= DeliveryFee(items)
    ensures GrandTotal(items) >= Subtotal(items)
    ensures |items| > 0 ==> GrandTotal(items) >= DeliveryFeeCents
  {
  }

  /** Adding a line to a cart raises the grand total by its price, plus the fee if the cart was empty. */
  lemma GrandTotalAppend(items: seq<CartLine>, line: CartLine)
    ensures GrandTotal(items + [line])
         == GrandTotal(items) + line.price + (if |items| == 0 then DeliveryFeeCents else 0)
  {
    SubtotalAppend(items, line);
  }

  /** The example basket: a burger at 8.00 and fries at 3.00 give 11.00 + 3.99 = 14.99. */
  lemma ExampleBasket()
    ensures var cart := [CartLine("b", "Burger", "", 800, "R1"), CartLine("f", "Fries", "", 300, "R1")];
      Subtotal(cart) == 1100 && DeliveryFee(cart) == 399 && GrandTotal(cart) == 1499
  {
    var cart := [CartLine("b", "Burger", "", 800, "R1"), CartLine("f", "Fries", "", 300, "R1")];
    assert cart[..1] == [cart[0]];
    assert cart[..1][..0] == [];
  }
}

=== FILE: domain.dfy ===
/**
 * The entities the front end handles: menu items, cart lines, the signed-in
 * user, the record sent to the backend's insert, and order rows as the
 * backend returns them. Prices are whole cents, so the decimal amounts of the
 * user interface (3.99) are exact integers here (399).
 */
module Domain {
  import opened Optional

  type Cents = int

  /** A menu item as listed under a restaurant. */
  datatype MenuItem = MenuItem(id: string, name: string, description: string, price: Cents)

  /** A cart line: the menu item's fields copied when it was added, plus the owning restaurant. */
  datatype CartLine = CartLine(id: string, name: string, description: string, price: Cents, restaurantId: string)

  /** The authenticated identity the session supplies. */
  datatype User = User(id: string, email: string)

  /** The record handed to the backend's insert when an order is placed. */
  datatype NewOrder = NewOrder(
    userId: string,
    restaurantId: string,
    items: seq<CartLine>,
    totalAmount: Cents,
    status: string)

  /**
   * An order row as the backend returns it: on insert, on the initial load
   * and in every pushed update. Driver and ETA are filled in by the backend.
   */
  datatype Order = Order(
    id: string,
    userId: string,
    restaurantId: string,
    items: seq<CartLine>,
    totalAmount: Cents,
    status: string,
    driverName: Option<string>,
    estimatedDelivery: Option<string>)

  /** JavaScript truthiness of an optional string field: absent and "" are falsy. */
  predicate Truthy(s: Option<string>) {
    s.Some? && s.value != ""
  }
}

=== FILE: home.dfy ===
/**
 * The page's own state and its transitions (app/page.jsx): adding and
 * removing cart lines, placing an order, the session mirror and closing the
 * tracking overlay. The backend's insert is not modelled; its answer is an
 * input to `PlaceOrder`.
 */
module Home {
  import opened Optional
  import opened Domain
  import Cart
  import Tracking

  /** The page's state: the cart, the order whose overlay is open, and the signed-in user. */
  datatype State = State(cart: seq<CartLine>, activeOrder: Option<Order>, user: Option<User>)

  /** The page as it first renders after the session check. */
  function Initial(user: Option<User>): (s: State)
    ensures |s.cart| == 0 && s.activeOrder.None? && s.user == user
  {
    State([], None, user)
  }

  /** A cart line for `item` chosen from restaurant `restaurantId`. */
  function LineOf(item: MenuItem, restaurantId: string): (line: CartLine)
    ensures line.id == item.id && line.name == item.name && line.description == item.description
    ensures line.price == item.price
    ensures line.restaurantId == restaurantId
  {
    CartLine(item.id, item.name, item.description, item.price, restaurantId)
  }

  /**
   * Adding a line appends it: every earlier line stays where it was, the new
   * last line carries the item's fields and the restaurant, nothing is merged.
   */
  function AddToCart(s: State, item: MenuItem, restaurantId: string): (r: State)
    ensures |r.cart| == |s.cart| + 1
    ensures r.cart[..|s.cart|] == s.cart
    ensures var last := r.cart[|s.cart|];
      last.id == item.id && last.name == item.name && last.description == item.description &&
      last.price == item.price && last.restaurantId == restaurantId
    ensures r.activeOrder == s.activeOrder && r.user == s.user
  {
    s.(cart := s.cart + [LineOf(item, restaurantId)])
  }

  /** The lines of `cart` whose position differs from `index`, in their original order. */
  function WithoutIndex(cart: seq<CartLine>, index: int): (r: seq<CartLine>)
    ensures 0 <= index < |cart| ==> |r| == |cart| - 1
    ensures !(0 <= index < |cart|) ==> |r| == |cart|
    ensures forall x :: x in r ==> x in cart
    decreases |cart|
  {
    if |cart| == 0 then []
    else WithoutIndex(cart[..|cart| - 1], index) + (if |cart| - 1 != index then [cart[|cart| - 1]] else [])
  }

  /** Filtering out one position cuts that line out when it exists, and keeps the cart otherwise. */
  lemma {:induction false} WithoutIndexCuts(cart: seq<CartLine>, index: int)
    ensures 0 <= index < |cart| ==> WithoutIndex(cart, index) == cart[..index] + cart[index + 1..]
    ensures !(0 <= index < |cart|) ==> WithoutIndex(cart, index) == cart
    decreases |cart|
  {
    if |cart| > 0 {
      var n := |cart| - 1;
      var front := cart[..n];
      WithoutIndexCuts(front, index);
      if index == n {
        assert cart[index + 1..] == [];
        assert WithoutIndex(cart, index) == front;
      } else if 0 <= index < n {
        assert cart[..index] == front[..index];
        assert cart[index + 1..] == front[index + 1..] + [cart[n]];
      } else {
        assert cart == front + [cart[n]];
      }
    }
  }

  /**
   * Removing by position: for a position in range the cart loses exactly that
   * line, the lines before it stay and the lines after it move down by one;
   * any other position leaves the cart unchanged.
   */
  function RemoveFromCart(s: State, index: int): (r: State)
    ensures 0 <= index < |s.cart| ==>
      && |r.cart| == |s.cart| - 1
      && (forall j :: 0 <= j < index ==> r.cart[j] == s.cart[j])
      && (forall j :: index <= j < |r.cart| ==> r.cart[j] == s.cart[j + 1])
    ensures !(0 <= index < |s.cart|) ==> r.cart == s.cart
    ensures r.activeOrder == s.activeOrder && r.user == s.user
  {
    WithoutIndexCuts(s.cart, index);
    s.(cart := WithoutIndex(s.cart, index))
  }

  /** The record sent to the insert: a pending order of the first line's restaurant, for the cart's subtotal. */
  function OrderRecord(cart: seq<CartLine>, user: User): (o: NewOrder)
    requires |cart| > 0
    ensures o.status == "pending"
    ensures o.userId == user.id
    ensures o.restaurantId == cart[0].restaurantId
    ensures o.items == cart
    ensures o.totalAmount == Cart.Subtotal(cart)
  {
    NewOrder(user.id, cart[0].restaurantId, cart, Cart.Subtotal(cart), "pending")
  }

  /** What placing an order did: the next state, and the record sent to the insert, if one was. */
  datatype Placement = Placement(next: State, sent: Option<NewOrder>)

  /**
   * Placing an order. Without a user nothing is sent and nothing changes.
   * Otherwise the cart's record is sent; `inserted` is the row the backend
   * answered with. When there is one, the cart empties and that order becomes
   * the active one; when there is none, nothing changes.
   */
  function PlaceOrder(s: State, inserted: Option<Order>): (r: Placement)
    requires s.user.Some? ==> |s.cart| > 0
    ensures r.next.user == s.user
    ensures s.user.None? ==> r.sent.None? && r.next == s
    ensures s.user.Some? ==> r.sent.Some?
    ensures r.sent.Some? ==>
      && r.sent.value.status == "pending"
      && r.sent.value.userId == s.user.value.id
      && r.sent.value.restaurantId == s.cart[0].restaurantId
      && r.sent.value.items == s.cart
      && r.sent.value.totalAmount == Cart.Subtotal(s.cart)
    ensures s.user.Some? && inserted.Some? ==> |r.next.cart| == 0 && r.next.activeOrder == inserted
    ensures inserted.None? ==> r.next == s
  {
    match s.user
    case None => Placement(s, None)
    case Some(u) =>
      var record := OrderRecord(s.cart, u);
      if inserted.Some? then Placement(State([], inserted, s.user), Some(record))
      else Placement(s, Some(record))
  }

  /** Closing the overlay drops the active order and touches nothing else. */
  function CloseTracker(s: State): (r: State)
    ensures r.activeOrder.None?
    ensures r.cart == s.cart && r.user == s.user
  {
    s.(activeOrder := None)
  }

  /**
   * The tracking overlay after the page re-renders with state `s`, given the
   * overlay mounted before (`prev`). The overlay is mounted exactly while an
   * order is active and follows that order's id. The component carries no
   * key, so a mounted overlay is reused when the active order changes: it
   * follows the new id but keeps the snapshot it held. Only a fresh mount
   * starts blank.
   */
  function Overlay(prev: Option<Tracking.Tracker>, s: State): (t: Option<Tracking.Tracker>)
    ensures t.Some? <==> s.activeOrder.Some?
    ensures t.Some? ==> t.value.orderId == s.activeOrder.value.id
    ensures t.Some? && prev.None? ==> t.value.held.None?
    ensures t.Some? && prev.Some? ==> t.value.held == prev.value.held
  {
    match s.activeOrder
    case None => None
    case Some(o) =>
      match prev
      case None => Some(Tracking.Open(o.id))
      case Some(p) => Some(p.(orderId := o.id))
  }

  /**
   * A successful checkout with no order active opens a blank overlay on the
   * new order; with an order already active, the mounted overlay turns to
   * the new id but still shows the previous snapshot. Closing unmounts it.
   */
  lemma CheckoutOpensOverlay(s: State, prev: Option<Tracking.Tracker>, o: Order)
    requires s.user.Some? && |s.cart| > 0
    requires prev.Some? <==> s.activeOrder.Some?
    ensures s.activeOrder.None? ==> Overlay(prev, PlaceOrder(s, Some(o)).next) == Some(Tracking.Open(o.id))
    ensures s.activeOrder.Some? ==>
      Overlay(prev, PlaceOrder(s, Some(o)).next) == Some(Tracking.Tracker(o.id, prev.value.held))
    ensures Overlay(Overlay(prev, PlaceOrder(s, Some(o)).next), CloseTracker(PlaceOrder(s, Some(o)).next)).None?
  {
  }

  /**
   * A re-targeted overlay that held order `a` renders `a`'s id and total
   * while it follows a different order, until a load or update for the new
   * order arrives.
   */
  lemma RetargetedOverlayShowsPrevious(prev: Tracking.Tracker, a: Order, s: State)
    requires prev.held == Some(a)
    requires s.activeOrder.Some? && s.activeOrder.value.id != a.id
    ensures Overlay(Some(prev), s).Some?
    ensures var v := Tracking.Render(Overlay(Some(prev), s).value);
      v.Some? && v.value.orderId == a.id && v.value.orderId != Overlay(Some(prev), s).value.orderId
  {
  }

  /** A session change mirrors the new user (or none) and touches nothing else. */
  function SessionChanged(s: State, user: Option<User>): (r: State)
    ensures r.user == user
    ensures r.cart == s.cart && r.activeOrder == s.activeOrder
  {
    s.(user := user)
  }

  /** Adding the same item twice gives two equal, separate lines. */
  lemma AddTwiceKeepsBoth(s: State, item: MenuItem, restaurantId: string)
    ensures var r := AddToCart(AddToCart(s, item, restaurantId), item, restaurantId);
      |r.cart| == |s.cart| + 2 && r.cart[|s.cart|] == r.cart[|s.cart| + 1]
  {
  }

  /** Adding a line raises the subtotal by exactly its price. */
  lemma AddRaisesSubtotal(s: State, item: MenuItem, restaurantId: string)
    ensures Cart.Subtotal(AddToCart(s, item, restaurantId).cart) == Cart.Subtotal(s.cart) + item.price
  {
    Cart.SubtotalAppend(s.cart, LineOf(item, restaurantId));
  }

  /** Removing the line at `index` lowers the subtotal by exactly its price; an out-of-range remove changes nothing. */
  lemma RemoveLowersSubtotal(s: State, index: int)
    ensures 0 <= index < |s.cart| ==>
      Cart.Subtotal(RemoveFromCart(s, index).cart) == Cart.Subtotal(s.cart) - s.cart[index].price
    ensures !(0 <= index < |s.cart|) ==> Cart.Subtotal(RemoveFromCart(s, index).cart) == Cart.Subtotal(s.cart)
  {
    WithoutIndexCuts(s.cart, index);
    if 0 <= index < |s.cart| {
      Cart.SubtotalRemove(s.cart, index);
    }
  }

  /** Adding a line and then removing it by its position restores the cart. */
  lemma RemoveUndoesAdd(s: State, item: MenuItem, restaurantId: string)
    ensures RemoveFromCart(AddToCart(s, item, restaurantId), |s.cart|) == s
  {
    var a := AddToCart(s, item, restaurantId);
    WithoutIndexCuts(a.cart, |s.cart|);
    assert a.cart[..|s.cart|] + a.cart[|s.cart| + 1..] == s.cart;
  }

  /** The example of removing position 0 from a two-line cart: only the former second line is left. */
  lemma RemoveFirstOfTwo(s: State)
    requires |s.cart| == 2
    ensures RemoveFromCart(s, 0).cart == [s.cart[1]]
  {
  }

  /**
   * The total the panel shows exceeds the total stored with the order by
   * exactly the delivery fee: the stored amount leaves the fee out.
   */
  lemma ShownTotalExceedsStored(s: State, inserted: Option<Order>)
    requires s.user.Some? && |s.cart| > 0
    ensures PlaceOrder(s, inserted).sent.Some?
    ensures Cart.GrandTotal(s.cart) == PlaceOrder(s, inserted).sent.value.totalAmount + Cart.DeliveryFeeCents
  {
  }

  /**
   * Checkout can only be pressed on a non-empty cart with someone signed in,
   * so every reachable checkout meets `PlaceOrder`'s precondition and sends a record.
   */
  lemma CheckoutReachableOnlyWhenValid(s: State, inserted: Option<Order>)
    requires Cart.CheckoutButton(s.cart, s.user).Some?
    requires Cart.CheckoutButton(s.cart, s.user).value.enabled
    ensures s.user.Some? && |s.cart| > 0
    ensures PlaceOrder(s, inserted).sent.Some?
  {
  }

  /** A refused or failed checkout leaves the page exactly as it was. */
  lemma FailedCheckoutChangesNothing(s: State, inserted: Option<Order>)
    requires s.user.Some? ==> |s.cart| > 0
    requires s.user.None? || inserted.None?
    ensures PlaceOrder(s, inserted).next == s
  {
  }

  /**
   * The worked example: a burger and fries from one restaurant, a signed-in
   * user, and a backend that answers with the new row. The record sent is a
   * pending order for 11.00, the cart empties, and the overlay for the new
   * order shows its first step in progress.
   */
  lemma ExampleCheckout(u: User, o: Order)
    requires o.status == "pending"
    ensures var s := State([CartLine("b", "Burger", "", 800, "R1"), CartLine("f", "Fries", "", 300, "R1")], None, Some(u));
      var p := PlaceOrder(s, Some(o));
      && p.sent == Some(NewOrder(u.id, "R1", s.cart, 1100, "pending"))
      && p.next == State([], Some(o), Some(u))
  {
    Cart.ExampleBasket();
  }
}

=== FILE: optional.dfy ===
/** A value that may be absent: the model of a JavaScript `null` or `undefined`. */
module Optional {

  datatype Option<+T> = None | Some(value: T)
}

=== FILE: tracking.dfy ===
/**
 * The order-tracking overlay (components/OrderTracking.jsx): the fixed
 * five-step status table, the progress derived from an order's status, the
 * held order snapshot and how loads and pushed updates replace it, and the
 * driver panel.
 */
module Tracking {
  import opened Optional
  import opened Domain

  /** One row of the status table: the status key it matches and its caption. */
  datatype Step = Step(key: string, caption: string)

  /** The status table, in progress order. */
  const StatusSteps: seq<Step> := [
    Step("pending", "Order Received"),
    Step("confirmed", "Confirmed"),
    Step("preparing", "Preparing"),
    Step("out_for_delivery", "Out for Delivery"),
    Step("delivered", "Delivered")
  ]

  /** The ETA shown when the backend gives none. */
  const DefaultEta: string := "20-30 mins"

  /**
   * `findIndex` over the table by key: the position of the first step whose
   * key is `status`, or -1 when no key is.
   */
  function FindIndex(steps: seq<Step>, status: string): (r: int)
    ensures -1 <= r < |steps|
    ensures 0 <= r ==> steps[r].key == status
    ensures 0 <= r ==> forall j :: 0 <= j < r ==> steps[j].key != status
    ensures r == -1 <==> forall j :: 0 <= j < |steps| ==> steps[j].key != status
    decreases |steps|
  {
    if |steps| == 0 then -1
    else if steps[0].key == status then 0
    else
      var k := FindIndex(steps[1..], status);
      if k == -1 then -1 else k + 1
  }

  /** The position of an order's status in the table, -1 when it is not a known status. */
  function CurrentStepIndex(status: string): (r: int)
    ensures -1 <= r < |StatusSteps|
    ensures 0 <= r ==> StatusSteps[r].key == status
    ensures r == -1 <==> !IsKnownStatus(status)
  {
    FindIndex(StatusSteps, status)
  }

  /** A step renders as reached when it is at or before the current one. */
  predicate IsActive(index: int, current: int)
    ensures index == current ==> IsActive(index, current)
    ensures current < 0 && 0 <= index ==> !IsActive(index, current)
  {
    index <= current
  }

  /** A step renders as in progress when it is the current one. */
  predicate IsCurrent(index: int, current: int)
    ensures IsCurrent(index, current) ==> IsActive(index, current) && !IsActive(index + 1, current)
  {
    index == current
  }

  /** How one step of the table renders. */
  datatype StepView = StepView(step: Step, active: bool, current: bool)

  /** The rendered steps, one per table row, for an order whose status is `status`. */
  function Progress(status: string): (r: seq<StepView>)
    ensures |r| == |StatusSteps|
    ensures forall i :: 0 <= i < |r| ==> r[i].step == StatusSteps[i]
  {
    var c := CurrentStepIndex(status);
    seq(|StatusSteps|, i requires 0 <= i < |StatusSteps| => StepView(StatusSteps[i], IsActive(i, c), IsCurrent(i, c)))
  }

  /** Number of steps rendered as reached. */
  function CountActive(v: seq<StepView>): nat
  {
    if |v| == 0 then 0 else CountActive(v[..|v| - 1]) + (if v[|v| - 1].active then 1 else 0)
  }

  /** Number of steps rendered as in progress. */
  function CountCurrent(v: seq<StepView>): nat
  {
    if |v| == 0 then 0 else CountCurrent(v[..|v| - 1]) + (if v[|v| - 1].current then 1 else 0)
  }

  /** Whether `status` is one of the table's keys. */
  predicate IsKnownStatus(status: string) {
    exists k :: 0 <= k < |StatusSteps| && StatusSteps[k].key == status
  }

  /** The table has five steps with pairwise distinct keys, in the order pending .. delivered. */
  lemma StatusStepsShape()
    ensures |StatusSteps| == 5
    ensures forall i, j :: 0 <= i < j < |StatusSteps| ==> StatusSteps[i].key != StatusSteps[j].key
    ensures StatusSteps[0].key == "pending" && StatusSteps[1].key == "confirmed"
    ensures StatusSteps[2].key == "preparing" && StatusSteps[3].key == "out_for_delivery"
    ensures StatusSteps[4].key == "delivered"
  {
  }

  /** The key at position k is found at position k: the keys are distinct, so the first match is the only one. */
  lemma CurrentStepIndexOfKey(k: int)
    requires 0 <= k < |StatusSteps|
    ensures CurrentStepIndex(StatusSteps[k].key) == k
  {
    StatusStepsShape();
  }

  /** For the status at position k, steps 0..k are reached, later ones are not, and only step k is in progress. */
  lemma KnownStatusProgress(k: int)
    requires 0 <= k < |StatusSteps|
    ensures forall i :: 0 <= i < |StatusSteps| ==>
      (Progress(StatusSteps[k].key)[i].active <==> i <= k) &&
      (Progress(StatusSteps[k].key)[i].current <==> i == k)
  {
    CurrentStepIndexOfKey(k);
  }

  /** For a status outside the table no step is reached and none is in progress. */
  lemma UnknownStatusProgress(status: string)
    requires !IsKnownStatus(status)
    ensures forall i :: 0 <= i < |StatusSteps| ==> !Progress(status)[i].active && !Progress(status)[i].current
  {
  }

  /** Reached steps form a prefix: a step before a reached step is reached. */
  lemma ActiveIsPrefix(status: string, i: int, j: int)
    requires 0 <= j <= i < |StatusSteps|
    requires Progress(status)[i].active
    ensures Progress(status)[j].active
  {
  }

  /** The step in progress is the furthest reached one: every reached step is at or before it. */
  lemma CurrentIsLastActive(status: string, i: int)
    requires 0 <= i < |StatusSteps|
    requires Progress(status)[i].current
    ensures forall j :: 0 <= j < |StatusSteps| && Progress(status)[j].active ==> j <= i
  {
  }

  /** Counting over any rendering whose reached steps are those at or before `c`. */
  lemma {:induction false} CountActivePrefix(v: seq<StepView>, c: int)
    requires -1 <= c
    requires forall i :: 0 <= i < |v| ==> (v[i].active <==> i <= c)
    ensures CountActive(v) == if c < |v| then c + 1 else |v|
    decreases |v|
  {
    if |v| > 0 {
      var v' := v[..|v| - 1];
      assert forall i :: 0 <= i < |v'| ==> v'[i] == v[i];
      CountActivePrefix(v', c);
    }
  }

  /** Counting over any rendering whose in-progress step is the one at `c`, if any. */
  lemma {:induction false} CountCurrentAt(v: seq<StepView>, c: int)
    requires forall i :: 0 <= i < |v| ==> (v[i].current <==> i == c)
    ensures CountCurrent(v) == if 0 <= c < |v| then 1 else 0
    decreases |v|
  {
    if |v| > 0 {
      var v' := v[..|v| - 1];
      assert forall i :: 0 <= i < |v'| ==> v'[i] == v[i];
      CountCurrentAt(v', c);
    }
  }

  /**
   * The number of reached steps is the status's position plus one: 1 for
   * "pending" up to 5 for "delivered", and 0 for a status outside the table.
   */
  lemma ActiveCountIsIndexPlusOne(status: string)
    ensures CountActive(Progress(status)) == CurrentStepIndex(status) + 1
  {
    CountActivePrefix(Progress(status), CurrentStepIndex(status));
  }

  /** Exactly one step is in progress for a known status, and none for an unknown one. */
  lemma CurrentCount(status: string)
    ensures IsKnownStatus(status) ==> CountCurrent(Progress(status)) == 1
    ensures !IsKnownStatus(status) ==> CountCurrent(Progress(status)) == 0
  {
    CountCurrentAt(Progress(status), CurrentStepIndex(status));
  }

  /** The driver panel: the driver's name and the ETA line. */
  datatype DriverPanel = DriverPanel(name: string, eta: string)

  /**
   * The driver panel, shown only when the order has a (non-empty) driver
   * name; the ETA falls back to the default when the order has none.
   */
  function DriverInfo(o: Order): (r: Option<DriverPanel>)
    ensures r.Some? <==> Truthy(o.driverName)
    ensures r.Some? ==> r.value.name == o.driverName.value
    ensures r.Some? && Truthy(o.estimatedDelivery) ==> r.value.eta == o.estimatedDelivery.value
    ensures r.Some? && !Truthy(o.estimatedDelivery) ==> r.value.eta == DefaultEta
  {
    if Truthy(o.driverName) then
      Some(DriverPanel(o.driverName.value, if Truthy(o.estimatedDelivery) then o.estimatedDelivery.value else DefaultEta))
    else None
  }

  /** The overlay's state: the order it follows and the snapshot it holds, if any yet. */
  datatype Tracker = Tracker(orderId: string, held: Option<Order>)

  /** The overlay as it opens for an order: nothing held yet. */
  function Open(orderId: string): (t: Tracker)
    ensures t.orderId == orderId && t.held.None?
  {
    Tracker(orderId, None)
  }

  /** The initial load's answer: kept when the backend returned a row, ignored when it returned none. */
  function Loaded(t: Tracker, data: Option<Order>): (r: Tracker)
    ensures r.orderId == t.orderId
    ensures data.Some? ==> r.held == data
    ensures data.None? ==> r == t
  {
    if data.Some? then t.(held := data) else t
  }

  /** A pushed update: the payload replaces the held snapshot wholesale, with no merging. */
  function Updated(t: Tracker, payload: Order): (r: Tracker)
    ensures r.orderId == t.orderId
    ensures r.held == Some(payload)
  {
    t.(held := Some(payload))
  }

  /** What arrives at the overlay: the initial load's answer or a pushed update. */
  datatype Event = Load(data: Option<Order>) | Push(payload: Order)

  /** The overlay after a run of events, applied in arrival order. */
  function Replay(t: Tracker, events: seq<Event>): (r: Tracker)
    ensures r.orderId == t.orderId
    ensures |events| == 0 ==> r == t
    ensures t.held.Some? ==> r.held.Some?
    decreases |events|
  {
    if |events| == 0 then t
    else
      var t' := Replay(t, events[..|events| - 1]);
      match events[|events| - 1]
      case Load(data) => Loaded(t', data)
      case Push(payload) => Updated(t', payload)
  }

  /** The last order row a run of events carried, if any. */
  function LastRow(events: seq<Event>): Option<Order>
    decreases |events|
  {
    if |events| == 0 then None
    else match events[|events| - 1]
      case Load(data) => if data.Some? then data else LastRow(events[..|events| - 1])
      case Push(payload) => Some(payload)
  }

  /**
   * Last writer wins: after any run of events the overlay holds the last row
   * that arrived, or what it held before when none did; the order it follows
   * never changes.
   */
  lemma {:induction false} ReplayHoldsLastRow(t: Tracker, events: seq<Event>)
    ensures Replay(t, events).orderId == t.orderId
    ensures Replay(t, events).held == if LastRow(events).Some? then LastRow(events) else t.held
    decreases |events|
  {
    if |events| > 0 {
      ReplayHoldsLastRow(t, events[..|events| - 1]);
    }
  }

  /** Once the overlay holds a snapshot it keeps holding one: no event takes it back to blank. */
  lemma {:induction false} ReplayKeepsSnapshot(t: Tracker, events: seq<Event>)
    requires t.held.Some?
    ensures Replay(t, events).held.Some?
  {
    ReplayHoldsLastRow(t, events);
  }

  /** Delivering the same update twice leaves the overlay as delivering it once. */
  lemma UpdatedIdempotent(t: Tracker, payload: Order)
    ensures Updated(Updated(t, payload), payload) == Updated(t, payload)
  {
  }

  /** Two updates in a row leave only the second: the earlier snapshot has no trace. */
  lemma UpdatedOverwrites(t: Tracker, a: Order, b: Order)
    ensures Updated(Updated(t, a), b) == Updated(t, b)
  {
  }

  /** The overlay as rendered. */
  datatype TrackingView = TrackingView(
    orderId: string,
    totalAmount: Cents,
    steps: seq<StepView>,
    driver: Option<DriverPanel>)

  /** The overlay renders nothing until it holds a snapshot, and then renders that snapshot. */
  function Render(t: Tracker): (r: Option<TrackingView>)
    ensures r.Some? <==> t.held.Some?
    ensures r.Some? ==> r.value.orderId == t.held.value.id && r.value.totalAmount == t.held.value.totalAmount
    ensures r.Some? ==> r.value.steps == Progress(t.held.value.status) && r.value.driver == DriverInfo(t.held.value)
  {
    match t.held
    case None => None
    case Some(o) => Some(TrackingView(o.id, o.totalAmount, Progress(o.status), DriverInfo(o)))
  }

  /** A freshly placed order renders with the first step reached and in progress, and the rest not. */
  lemma PendingRendersFirstStep(t: Tracker, o: Order)
    requires o.status == "pending"
    ensures Render(Updated(t, o)).Some?
    ensures var steps := Render(Updated(t, o)).value.steps;
      |steps| == 5 && steps[0].active && steps[0].current &&
      forall i :: 1 <= i < 5 ==> !steps[i].active && !steps[i].current
  {
    KnownStatusProgress(0);
  }
}
